=== FILE: README.md ===
# Local-vs-GCP reconciliation and the payments routing rule, in Dafny

This project models two pieces of a small data-engineering repository.

1. **The application-record reconciliation** (`executar_validacao` in
   `questao_3/validacao_local.py`). Two tables of application records, "local" and
   "GCP", are keyed by an integer `ID`. Three SQL `INSERT ... SELECT` passes write
   discrepancy rows into `tb_inconsistencias_aplicacoes`, which is emptied first.
   The passes run over an inclusive ID range (`BETWEEN id_inicio AND id_fim`):
   - `AUSENTE_GCP`: the ID is local only;
   - `AUSENTE_LOCAL`: the ID is in GCP only;
   - `DIVERGENCIA_VALORES`: the ID is in both tables and one of six compared fields differs.

   The model keeps SQLite's semantics:
   - `!=` is three-valued and a NULL operand never makes it hold;
   - `OR` is Kleene's, and `WHERE` keeps only rows whose condition is TRUE;
   - `COALESCE(OCCUPATION_TYPE, '')` makes NULL and `''` compare equal;
   - `||` returns NULL when any operand is NULL, so the snapshot columns can be NULL.

   The two joins are modelled as nested scans of the tables, so duplicate IDs
   multiply rows exactly as the joins would. The exactly-once results assume
   unique IDs.
   The summary read by `exibir_resultados` is modelled as well: the count per kind and the first ten rows.

2. **The payments task** (`processar_pagamentos` in `questao_2/dag_regua_cobranca.py`).
   Weekdays 0–4 load the day's file into production. Weekdays 5–6 copy it to
   `/opt/airflow/logs/pagamentos_d-1_YYYYMMDD.csv`. The model also covers the
   record count printed on load: the line count minus one header line.

Modules:
- `Wrappers`: `Option`.
- `Digits`: decimal rendering and reading back.
- `Sql`: three-valued logic, `COALESCE`, `||`.
- `Records`: the record type and ID lookup.
- `Validacao`: the three passes and one run.
- `ValidacaoProps`: properties across IDs and runs.
- `Resultados`: the summary queries.
- `ValidacaoExamples`: worked instances.
- `Lines`: `readlines()`.
- `Regua`: the payments task.

The two run timestamps (`datetime.now()`) are parameters (`Stamp`). The
execution date and its `weekday()` are parameters of `ProcessarPagamentos`.
The file content is a parameter of the record count.

### Consequences of the SQL as written
- A field that is NULL on one side and present on the other is not a difference. Plain `!=` with a NULL operand is never TRUE. Only `OCCUPATION_TYPE`, under `COALESCE(..., '')`, is compared with NULL read as `''`.
- `||` propagates NULL into the snapshot columns. An `AUSENTE_*` snapshot is NULL when gender, income or income type is NULL. A `DIVERGENCIA_VALORES` snapshot is NULL when gender, income or days of birth is NULL.
- `BETWEEN` with a lower bound above the upper bound selects nothing.
- Duplicate IDs multiply join rows. `Reconcile` therefore has no precondition, and ID uniqueness is a precondition of the exactly-once lemmas only.

## Model

| member | source | states |
|---|---|---|
| Sql.Ne | questao_3/validacao_local.py:114-119 | `a != b` is TRUE exactly when both operands are non-NULL and different, and UNKNOWN exactly when one is NULL |
| Sql.Or | questao_3/validacao_local.py:113-120 | Kleene OR: TRUE iff some operand is TRUE, FALSE iff both are FALSE |
| Sql.Coalesce | questao_3/validacao_local.py:117 | `COALESCE(a, d)` is the value of `a`, or `d` when `a` is NULL |
| Sql.Concat | questao_3/validacao_local.py:72 | `a \|\| b` is non-NULL iff both operands are, and is then their concatenation |
| Sql.NullNeverDiffers | questao_3/validacao_local.py:114-119 | a NULL operand never makes `!=` hold, whatever the other side |
| Sql.CoalesceEmptyIdentifiesNull | questao_3/validacao_local.py:117 | after `COALESCE(x, '')`, NULL vs NULL and NULL vs '' compare equal |
| Records.Find | questao_3/validacao_local.py:77 | the join lookup returns a row of the table with the requested ID, and returns None exactly when no row has that ID |
| Records.FindUnique | questao_3/validacao_local.py:111 | with unique IDs, looking up a row's ID finds exactly that row |
| Digits.IntText | questao_3/validacao_local.py:71 | the text of an integer ID in a description is digits without leading zeros (a lone `0` for zero), with a leading '-' before a non-zero first digit for negative IDs |
| Digits.IntTextRoundTrip | questao_3/validacao_local.py:71 | the integer can be read back from its rendering, which is what makes a description determine its ID |
| Digits.Padded | questao_2/dag_regua_cobranca.py:47 | a zero-padded field is all digits and exactly `width` long when the number fits |
| Digits.PaddedRoundTrip | questao_2/dag_regua_cobranca.py:47 | the number can be read back from its zero-padded rendering |
| Validacao.KindNameInjective | questao_3/validacao_local.py:69 | the three `tipo_inconsistencia` texts are distinct, so grouping by the text groups by kind |
| Validacao.Descricao | questao_3/validacao_local.py:71 | the description is `Registro ID `, then the ID's decimal text, then the kind's fixed sentence, each found at its own position |
| Validacao.DescricaoInjective | questao_3/validacao_local.py:71 | a description text determines both the kind and the ID it was written for |
| Validacao.DivergenceCondition | questao_3/validacao_local.py:113-120 | the three-valued condition is TRUE iff a field differs under the two-valued reading, and FALSE iff all six fields are equal and present, with occupation read through COALESCE |
| Validacao.MissingInGcp | questao_3/validacao_local.py:66-80 | every row is an AUSENTE_GCP row with NULL `dados_gcp`, built from some local record whose ID is in range and absent from GCP, and every such local record yields its row |
| Validacao.MissingLocally | questao_3/validacao_local.py:83-97 | every row is an AUSENTE_LOCAL row with NULL `dados_local`, built from some GCP record whose ID is in range and absent locally, and every such GCP record yields its row |
| Validacao.DivergentPartners | questao_3/validacao_local.py:110-120 | for one local record, the rows are exactly its INNER JOIN partners in range that diverge |
| Validacao.Divergences | questao_3/validacao_local.py:100-121 | every row comes from a joined local/GCP pair with equal IDs, in range, that diverges, and every such pair yields its row |
| Validacao.Reconcile | questao_3/validacao_local.py:65-121 | every row's ID is in range and the row carries the run's timestamps. A row's kind matches which tables hold its ID, and the missing side's snapshot is NULL. Rows come in kind order AUSENTE_GCP, AUSENTE_LOCAL, DIVERGENCIA_VALORES, and one ID never appears under two kinds |
| Validacao.ExecutarValidacao | questao_3/validacao_local.py:62-63 | after the DELETE and the inserts, every row of the table belongs to this run: it carries this run's timestamps, is in range and is correctly classified |
| ValidacaoProps.DivergesIffFieldsDiffer | questao_3/validacao_local.py:113-120 | the three-valued WHERE condition keeps a pair iff one of five fields is present on both sides with different values, or the occupations differ with NULL read as '' |
| ValidacaoProps.AgreeingRecordsDoNotDiverge | questao_3/validacao_local.py:113-120 | records equal on all six compared fields never diverge |
| ValidacaoProps.OccupationNullSafe | questao_3/validacao_local.py:117 | occupations that are each NULL or '' do not affect the verdict; a NULL occupation on either side against a non-empty one diverges |
| ValidacaoProps.NullNeverCreatesDivergence | questao_3/validacao_local.py:114-119 | replacing any one of the five plainly compared fields, on the local side or on the GCP side, by NULL cannot make a non-divergent pair divergent |
| Validacao.MissingSnapshot | questao_3/validacao_local.py:72 | the AUSENTE snapshot is NULL iff gender, income or income type is NULL, otherwise `gender\|income\|type` |
| Validacao.DivergenceSnapshot | questao_3/validacao_local.py:106-107 | the DIVERGENCIA snapshot is NULL iff gender, income or days of birth is NULL, otherwise `gender\|income\|days\|occupation` with a NULL occupation shown as `NULL` |
| ValidacaoProps.ExactlyOneMissingInGcp | questao_3/validacao_local.py:66-80 | with unique local IDs, an ID has exactly one AUSENTE_GCP row if it is in range, local and not in GCP, and none otherwise |
| ValidacaoProps.ExactlyOneMissingLocally | questao_3/validacao_local.py:83-97 | with unique GCP IDs, an ID has exactly one AUSENTE_LOCAL row if it is in range, in GCP and not local, and none otherwise |
| ValidacaoProps.ExactlyOneDivergence | questao_3/validacao_local.py:100-120 | with unique IDs on both sides, a shared in-range ID has exactly one DIVERGENCIA_VALORES row iff its two records differ on the compared fields, and every other ID has none |
| ValidacaoProps.AtMostOneRowPerId | questao_3/validacao_local.py:77-78 | with unique IDs, the three kinds together report an ID at most once |
| ValidacaoProps.RangeBoundsInclusive | questao_3/validacao_local.py:79 | for AUSENTE_GCP, local-only IDs equal to either bound are reported, and IDs one below the lower or one above the upper bound are not |
| ValidacaoProps.RangeBoundsInclusiveMissingLocally | questao_3/validacao_local.py:96 | for AUSENTE_LOCAL, GCP-only IDs equal to either bound are reported, and IDs just outside the bounds are not |
| ValidacaoProps.RangeBoundsInclusiveDivergence | questao_3/validacao_local.py:112 | for DIVERGENCIA_VALORES, shared IDs whose records differ are reported at either bound, and not just outside the bounds |
| ValidacaoProps.ReconcileUnstamped | questao_3/validacao_local.py:46-47 | the clock only reaches the two timestamp columns: blanking them gives the rows of a run with empty timestamps |
| ValidacaoProps.RerunSameApartFromTimestamps | questao_3/validacao_local.py:62-63 | two runs on the same tables and bounds give the same rows apart from timestamps, whatever the table held before |
| ValidacaoProps.RunReplacesPrevious | questao_3/validacao_local.py:62-63 | the previous table contents do not influence the result, and running twice with the same inputs gives the first run's result |
| ValidacaoExamples.LocalOnlyRecord | questao_3/validacao_local.py:66-80 | a lone local record at range [1, 1] gives one AUSENTE_GCP row, whose snapshot is NULL because the income type is NULL |
| ValidacaoExamples.IncomeMismatch | questao_3/validacao_local.py:115 | the same ID with different incomes gives one DIVERGENCIA_VALORES row |
| ValidacaoExamples.IdenticalRecords | questao_3/validacao_local.py:113-120 | identical records give no row |
| ValidacaoExamples.NullOnOneSide | questao_3/validacao_local.py:115 | a difference that is only a NULL income on one side gives no row |
| Resultados.CountKind | questao_3/validacao_local.py:137-140 | a kind's count is at most the row count, and is positive iff some row has that kind |
| Resultados.CountsSumToTotal | questao_3/validacao_local.py:137-142 | the per-kind counts add up to the number of rows |
| Resultados.Resumo | questao_3/validacao_local.py:137-144 | the summary has a group exactly for each kind that occurs, holding its count |
| Resultados.ResumoEmptyIffNoRows | questao_3/validacao_local.py:146-147 | the summary is empty exactly when the table has no rows |
| Resultados.Detalhes | questao_3/validacao_local.py:157-161 | the detail listing is the first min(10, n) rows in insertion order |
| Resultados.RunCountsByPass | questao_3/validacao_local.py:137-142 | in a run's table, each kind's count is the number of rows its pass inserted |
| Lines.ReadLines | questao_2/dag_regua_cobranca.py:35-36 | the lines concatenate back to the file content, each is non-empty, '\n' occurs only at line ends, and only the last line may lack it |
| Lines.ReadLinesOfJoin | questao_2/dag_regua_cobranca.py:36 | splitting the concatenation of well-formed lines gives back those lines |
| Regua.Route | questao_2/dag_regua_cobranca.py:24-27 | weekday numbers 0 to 4 process the file and exactly 5 and 6 archive it |
| Regua.RouteByWeekday | questao_2/dag_regua_cobranca.py:24-27 | Monday to Friday route to processing; Saturday and Sunday route to archiving |
| Regua.ProcessarPagamentos | questao_2/dag_regua_cobranca.py:18-27 | exactly one action per run, both actions on the same source file. Loading happens iff the weekday number is at most 4, and archiving writes to a name from which the execution date reads back |
| Regua.ProcessarByWeekday | questao_2/dag_regua_cobranca.py:20-27 | a weekday run loads the file; a weekend run archives it under that date's name |
| Regua.DateStamp | questao_2/dag_regua_cobranca.py:47 | `%Y%m%d` is eight digits, which read back as the year (first four), the month (next two) and the day (last two) |
| Regua.ArchiveDestination | questao_2/dag_regua_cobranca.py:47 | the destination is the log prefix, then eight date characters, then `.csv` |
| Regua.ArchiveDestinationRoundTrip | questao_2/dag_regua_cobranca.py:47 | the execution date can be read back from the destination name |
| Regua.ArchiveDestinationInjective | questao_2/dag_regua_cobranca.py:47 | distinct dates archive to distinct files |
| Regua.TotalRegistros | questao_2/dag_regua_cobranca.py:38 | the printed count is at least -1, and is -1 for an empty file |
| Regua.RecordsAfterHeader | questao_2/dag_regua_cobranca.py:38 | the intended count is one less than the number of lines, or 0 when the file is empty |
| Regua.RecordsAfterHeaderOfLines | questao_2/dag_regua_cobranca.py:38 | a header line followed by k record lines is counted as k records |
| Regua.EmptyFileCount | questao_2/dag_regua_cobranca.py:38 | on an empty file the as-written count is -1 while the intended count is 0 |

## Left out

- Loading the two CSV files with pandas, and the `;` vs `,` separators: file I/O and a foreign library. The tables are given as sequences of records.
- The SQLite connection, DROP/CREATE DDL, `to_sql`, `commit` and all printing: persistence and console plumbing. The result table is a sequence, and a run replaces it.
- `datetime.now()` and `strftime` for the two run timestamps: clock reads. They are the `Stamp` parameter.
- Typing of `AMT_INCOME_TOTAL`, `DAYS_BIRTH` and the other columns. Every value is compared and concatenated as its text, so SQLite's numeric comparison (`1.0` = `1`) and pandas' float rendering of integer columns with missing values are not modelled.
- A NULL `ID`: IDs are integers. In SQLite a NULL-ID row fails `BETWEEN` and never joins, so it produces no row.
- SQL row order within a pass: SQLite does not promise one. The model scans the driving table (local for passes 1 and 3, GCP for pass 2) in order, and the join's inner table in order. The kind order between passes follows the order of the three INSERTs and relies on rows being read back in insertion order.
- Resultados.Resumo: the `ORDER BY total DESC` order of the summary lines is not modelled. The summary is a map from kind to count, because ties have no defined order.
- The f-string splicing of bounds and timestamps into SQL text: the bounds are typed integers.
- Airflow DAG construction, `FileSensor` polling, retries, `os.makedirs`, `shutil.copy` and reading the file: scheduler and filesystem plumbing.
- `datetime.weekday()`: the weekday number is an input in 0..6. `Weekday` names the days for the routing lemmas.
- Regua.DateStamp: `%Y` is modelled as four zero-padded digits for every year. Some C libraries do not pad years below 1000.
- Lines.ReadLines: the universal-newline translation of `\r\n` and `\r` is not modelled. The content is taken after translation.
- `questao_1/etl_users.py` (HTTP fetch and SQLite inserts) is not part of this model.

## Findings

| source | as written | input that shows it | evidently intended | confidence | as-written member | corrected member |
|---|---|---|---|---|---|---|
| questao_2/dag_regua_cobranca.py:38 | the record count is `len(linhas) - 1` whether or not there is a header line | an empty payments file: the task prints `Total de registros encontrados: -1` (`Regua.EmptyFileCount`) | the number of lines after the header, 0 for an empty file | medium, not executed | Regua.TotalRegistros | Regua.RecordsAfterHeader |

=== FILE: digits.dfy ===
/**
 Decimal rendering of non-negative integers, as SQLite renders an INTEGER
 operand of `||` and as `strftime` renders the `%Y`, `%m` and `%d` fields,
 together with the inverse reading used to show that renderings are
 unambiguous.
 */
module Digits {

  predicate IsDigit(c: char) {
    '0' <= c <= '9'
  }

  predicate AllDigits(s: string) {
    forall i :: 0 <= i < |s| ==> IsDigit(s[i])
  }

  function Pow10(w: nat): (p: nat)
    ensures p >= 1
  {
    if w == 0 then 1 else 10 * Pow10(w - 1)
  }

  function DigitChar(d: nat): (c: char)
    requires d < 10
    ensures IsDigit(c)
    ensures c as int - '0' as int == d
  {
    ('0' as int + d) as char
  }

  /** Shortest decimal rendering of `n` (no sign, no leading zeros). */
  function NatText(n: nat): (s: string)
    ensures 1 <= |s|
    ensures AllDigits(s)
    ensures |s| > 1 ==> s[0] != '0'
    decreases n
  {
    if n < 10 then [DigitChar(n)] else NatText(n / 10) + [DigitChar(n % 10)]
  }

  /** The number a string of decimal digits denotes; leading zeros are allowed. */
  function DigitsValue(s: string): nat
    requires AllDigits(s)
  {
    if |s| == 0 then 0 else DigitsValue(s[..|s| - 1]) * 10 + (s[|s| - 1] as int - '0' as int)
  }

  function Zeros(k: nat): (s: string)
    ensures |s| == k
    ensures forall i :: 0 <= i < k ==> s[i] == '0'
  {
    if k == 0 then [] else Zeros(k - 1) + ['0']
  }

  /** `n` rendered in at least `width` digits, left-padded with '0' (the `%02d` style). */
  function Padded(n: nat, width: nat): (s: string)
    ensures AllDigits(s)
    ensures 1 <= width && n < Pow10(width) ==> |s| == width
  {
    var t := NatText(n);
    assert 1 <= width && n < Pow10(width) ==> |t| <= width by {
      if 1 <= width && n < Pow10(width) { NatTextWidth(n, width); }
    }
    if |t| >= width then t else Zeros(width - |t|) + t
  }

  /** Signed decimal rendering, as SQLite writes an INTEGER: no leading zeros, and a '-' sign before a negative number. */
  function IntText(i: int): (s: string)
    ensures 1 <= |s|
    ensures i >= 0 ==> AllDigits(s)
    ensures i < 0 ==> s[0] == '-' && AllDigits(s[1..])
    ensures i >= 0 ==> |s| == 1 || s[0] != '0'
    ensures i < 0 ==> 2 <= |s| && s[1] != '0'
  {
    if i < 0 then "-" + NatText(-i) else NatText(i)
  }

  /** Reading an integer back from its signed rendering. */
  function ReadInt(s: string): (i: int)
    requires 1 <= |s|
    requires AllDigits(s) || (s[0] == '-' && AllDigits(s[1..]))
  {
    if s[0] == '-' then -(DigitsValue(s[1..]) as int) else DigitsValue(s)
  }

  lemma {:induction false} NatTextWidth(n: nat, width: nat)
    requires 1 <= width
    requires n < Pow10(width)
    ensures |NatText(n)| <= width
    decreases n
  {
    if n >= 10 {
      assert width >= 2;
      assert n / 10 < Pow10(width - 1);
      NatTextWidth(n / 10, width - 1);
      assert NatText(n) == NatText(n / 10) + [DigitChar(n % 10)];
    }
  }

  /** Reading back the shortest rendering gives the number. */
  lemma {:induction false} NatTextRoundTrip(n: nat)
    ensures DigitsValue(NatText(n)) == n
    decreases n
  {
    if n >= 10 {
      var s := NatText(n);
      assert s[..|s| - 1] == NatText(n / 10);
      NatTextRoundTrip(n / 10);
    }
  }

  /** Leading zeros do not change the value of a digit string. */
  lemma {:induction false} LeadingZeros(k: nat, t: string)
    requires AllDigits(t)
    ensures AllDigits(Zeros(k) + t)
    ensures DigitsValue(Zeros(k) + t) == DigitsValue(t)
    decreases |t|
  {
    var s := Zeros(k) + t;
    if |t| == 0 {
      assert s == Zeros(k);
      ZerosValue(k);
    } else {
      assert s[..|s| - 1] == Zeros(k) + t[..|t| - 1];
      LeadingZeros(k, t[..|t| - 1]);
    }
  }

  lemma {:induction false} ZerosValue(k: nat)
    ensures DigitsValue(Zeros(k)) == 0
  {
    if k > 0 {
      assert Zeros(k)[..k - 1] == Zeros(k - 1);
      ZerosValue(k - 1);
    }
  }

  /** Reading back a padded rendering gives the number. */
  lemma PaddedRoundTrip(n: nat, width: nat)
    ensures DigitsValue(Padded(n, width)) == n
  {
    NatTextRoundTrip(n);
    var t := NatText(n);
    if |t| < width {
      LeadingZeros(width - |t|, t);
    }
  }

  /** Reading back a signed rendering gives the integer, so distinct IDs render distinctly. */
  lemma IntTextRoundTrip(i: int)
    ensures ReadInt(IntText(i)) == i
  {
    if i < 0 {
      assert IntText(i)[1..] == NatText(-i);
      NatTextRoundTrip(-i);
    } else {
      NatTextRoundTrip(i);
    }
  }
}

=== FILE: lines.dfy ===
/**
 Python's `readlines()` on a text file: the content cut after every newline,
 each piece keeping its '\n', the last piece possibly without one.
 */
module Lines {

  function Join(lines: seq<string>): string {
    if |lines| == 0 then "" else lines[0] + Join(lines[1..])
  }

  /** A line list `readlines()` can return: non-empty lines, '\n' only at line ends, only the last may lack it. */
  predicate WellFormed(lines: seq<string>) {
    && (forall i :: 0 <= i < |lines| ==> |lines[i]| > 0)
    && (forall i :: 0 <= i < |lines| - 1 ==> lines[i][|lines[i]| - 1] == '\n')
    && (forall i, j :: 0 <= i < |lines| && 0 <= j < |lines[i]| - 1 ==> lines[i][j] != '\n')
  }

  /** Index of the first '\n', or |s| when there is none. */
  function NewlineIndex(s: string): (k: nat)
    ensures k <= |s|
    ensures forall j :: 0 <= j < k ==> s[j] != '\n'
    ensures k < |s| ==> s[k] == '\n'
  {
    if |s| == 0 || s[0] == '\n' then 0 else 1 + NewlineIndex(s[1..])
  }

  function ReadLines(s: string): (lines: seq<string>)
    ensures Join(lines) == s
    ensures WellFormed(lines)
    ensures |lines| == 0 <==> |s| == 0
    decreases |s|
  {
    if |s| == 0 then []
    else
      var k := NewlineIndex(s);
      if k == |s| then
        assert Join([s]) == s + Join([]);
        [s]
      else
        var rest := ReadLines(s[k + 1..]);
        var lines := [s[..k + 1]] + rest;
        assert lines[1..] == rest;
        assert s[..k + 1] + s[k + 1..] == s;
        assert forall i :: 1 <= i < |lines| ==> lines[i] == rest[i - 1];
        lines
  }

  /** Cutting the concatenation of a well-formed line list gives back the list. */
  lemma {:induction false} ReadLinesOfJoin(lines: seq<string>)
    requires WellFormed(lines)
    ensures ReadLines(Join(lines)) == lines
  {
    if |lines| > 0 {
      var s := Join(lines);
      var l0 := lines[0];
      var rest := lines[1..];
      assert s == l0 + Join(rest);
      assert WellFormed(rest) by {
        assert forall i :: 0 <= i < |rest| ==> rest[i] == lines[i + 1];
      }
      if |lines| == 1 {
        assert s == l0;
        if l0[|l0| - 1] == '\n' {
          assert NewlineIndex(s) == |l0| - 1;
          assert s[|l0|..] == "";
          assert s[..|l0|] == l0;
        } else {
          assert NewlineIndex(s) == |s|;
        }
      } else {
        assert s[|l0| - 1] == '\n';
        assert forall j :: 0 <= j < |l0| - 1 ==> s[j] == l0[j] && l0[j] != '\n';
        assert NewlineIndex(s) == |l0| - 1;
        assert s[..|l0|] == l0;
        assert s[|l0|..] == Join(rest);
        ReadLinesOfJoin(rest);
      }
    }
  }
}

=== FILE: records.dfy ===
/**
 The two application-record tables, local and GCP, as sequences of rows.
 Every compared column may be NULL; the ID is an integer.
 */
module Records {
  import opened Wrappers

  /** A column value, as the text SQLite compares and concatenates. */
  type Value = string

  datatype Record = Record(
    id: int,
    codeGender: Option<Value>,
    amtIncomeTotal: Option<Value>,
    nameIncomeType: Option<Value>,
    daysBirth: Option<Value>,
    occupationType: Option<Value>,
    flagOwnCar: Option<Value>,
    flagOwnRealty: Option<Value>)

  /** A table; row order is the order a scan visits the rows. */
  type Table = seq<Record>

  /** No two rows of the table share an ID. */
  predicate UniqueIds(t: Table) {
    forall i, j :: 0 <= i < j < |t| ==> t[i].id != t[j].id
  }

  /** The first row with ID `x`, or None when the table has none (the join partner lookup). */
  function Find(t: Table, x: int): (o: Option<Record>)
    ensures o.Some? ==> o.value in t && o.value.id == x
    ensures o.None? <==> (forall r :: r in t ==> r.id != x)
  {
    if |t| == 0 then None
    else if t[0].id == x then Some(t[0])
    else Find(t[1..], x)
  }

  lemma UniqueTail(t: Table)
    requires |t| > 0
    requires UniqueIds(t)
    ensures UniqueIds(t[1..])
    ensures Find(t[1..], t[0].id).None?
  {
    forall r | r in t[1..]
      ensures r.id != t[0].id
    {
      var j :| 0 <= j < |t[1..]| && t[1..][j] == r;
      assert t[j + 1] == r;
    }
  }

  /** In a table with unique IDs, the lookup by a row's ID finds exactly that row. */
  lemma {:induction false} FindUnique(t: Table, r: Record)
    requires UniqueIds(t)
    requires r in t
    ensures Find(t, r.id) == Some(r)
  {
    if t[0] != r {
      UniqueTail(t);
      assert r in t[1..];
      FindUnique(t[1..], r);
    }
  }
}

=== FILE: regua.dfy ===
/**
 The daily payments task of the collection pipeline (`processar_pagamentos`):
 on weekdays the day's file is loaded into production, at weekends it is
 archived under a name carrying the execution date.
 */
module Regua {
  import opened Wrappers
  import Digits
  import Lines

  datatype Date = Date(year: int, month: int, day: int)

  predicate IsLeapYear(y: int) {
    y % 4 == 0 && (y % 100 != 0 || y % 400 == 0)
  }

  function DaysInMonth(y: int, m: int): int
    requires 1 <= m <= 12
  {
    if m == 2 then (if IsLeapYear(y) then 29 else 28)
    else if m == 4 || m == 6 || m == 9 || m == 11 then 30
    else 31
  }

  /** The dates a Python `datetime` can hold (years 1 to 9999). */
  predicate ValidDate(d: Date) {
    && 1 <= d.year <= 9999
    && 1 <= d.month <= 12
    && 1 <= d.day <= DaysInMonth(d.year, d.month)
  }

  /** Days of the week; `datetime.weekday()` numbers them from Monday = 0. */
  datatype Weekday = Monday | Tuesday | Wednesday | Thursday | Friday | Saturday | Sunday

  function WeekdayNumber(w: Weekday): (n: int)
    ensures 0 <= n <= 6
  {
    match w
    case Monday => 0
    case Tuesday => 1
    case Wednesday => 2
    case Thursday => 3
    case Friday => 4
    case Saturday => 5
    case Sunday => 6
  }

  datatype Decision = Process | Archive

  /** The branch on `dia_semana <= 4`: the five day numbers 0 to 4 are processed, 5 and 6 archived. */
  function Route(diaSemana: int): (d: Decision)
    requires 0 <= diaSemana <= 6
    ensures d == Process <==> diaSemana in {0, 1, 2, 3, 4}
    ensures d == Archive <==> diaSemana in {5, 6}
  {
    if diaSemana <= 4 then Process else Archive
  }

  /** Monday to Friday are processed; Saturday and Sunday are archived. */
  lemma RouteByWeekday(w: Weekday)
    ensures Route(WeekdayNumber(w)) == Process <==> w !in {Saturday, Sunday}
    ensures Route(WeekdayNumber(w)) == Archive <==> w in {Saturday, Sunday}
  {
  }

  const SourceFile := "/opt/airflow/data/pagamentos_d-1.csv"
  const ArchivePrefix := "/opt/airflow/logs/pagamentos_d-1_"
  const ArchiveSuffix := ".csv"

  /** `strftime("%Y%m%d")`: four-digit year, two-digit month and day, zero-padded. */
  function DateStamp(d: Date): (s: string)
    requires ValidDate(d)
    ensures |s| == 8
    ensures Digits.AllDigits(s)
    ensures Digits.DigitsValue(s[..4]) == d.year
    ensures Digits.DigitsValue(s[4..6]) == d.month
    ensures Digits.DigitsValue(s[6..]) == d.day
  {
    assert Digits.Pow10(4) == 10000 && Digits.Pow10(2) == 100;
    var y, m, dd := Digits.Padded(d.year, 4), Digits.Padded(d.month, 2), Digits.Padded(d.day, 2);
    Digits.PaddedRoundTrip(d.year, 4);
    Digits.PaddedRoundTrip(d.month, 2);
    Digits.PaddedRoundTrip(d.day, 2);
    var text := y + m + dd;
    assert text[..4] == y && text[4..6] == m && text[6..] == dd;
    text
  }

  /** The destination `arquivar_arquivo` copies the file to. */
  function ArchiveDestination(d: Date): (s: string)
    requires ValidDate(d)
    ensures |s| == |ArchivePrefix| + 8 + |ArchiveSuffix|
    ensures s[..|ArchivePrefix|] == ArchivePrefix
    ensures s[|s| - |ArchiveSuffix|..] == ArchiveSuffix
  {
    ArchivePrefix + DateStamp(d) + ArchiveSuffix
  }

  /** Reads the execution date back from an archive file name. */
  function ParseArchiveDestination(s: string): Option<Date> {
    var n := |ArchivePrefix|;
    if |s| == n + 8 + |ArchiveSuffix| && s[..n] == ArchivePrefix && s[n + 8..] == ArchiveSuffix
       && Digits.AllDigits(s[n..n + 8])
    then
      var t := s[n..n + 8];
      assert Digits.AllDigits(t[..4]) && Digits.AllDigits(t[4..6]) && Digits.AllDigits(t[6..]);
      Some(Date(Digits.DigitsValue(t[..4]), Digits.DigitsValue(t[4..6]), Digits.DigitsValue(t[6..])))
    else None
  }

  lemma ArchiveDestinationRoundTrip(d: Date)
    requires ValidDate(d)
    ensures ParseArchiveDestination(ArchiveDestination(d)) == Some(d)
  {
    assert Digits.Pow10(4) == 10000 && Digits.Pow10(2) == 100;
    var y := Digits.Padded(d.year, 4);
    var m := Digits.Padded(d.month, 2);
    var dd := Digits.Padded(d.day, 2);
    var s := ArchiveDestination(d);
    var n := |ArchivePrefix|;
    assert s == ArchivePrefix + (y + m + dd) + ArchiveSuffix;
    assert s[n..n + 8] == y + m + dd;
    assert s[n + 8..] == ArchiveSuffix;
    var t := y + m + dd;
    assert t[..4] == y && t[4..6] == m && t[6..] == dd;
    Digits.PaddedRoundTrip(d.year, 4);
    Digits.PaddedRoundTrip(d.month, 2);
    Digits.PaddedRoundTrip(d.day, 2);
  }

  /** Distinct execution dates archive to distinct files. */
  lemma ArchiveDestinationInjective(d1: Date, d2: Date)
    requires ValidDate(d1) && ValidDate(d2)
    requires d1 != d2
    ensures ArchiveDestination(d1) != ArchiveDestination(d2)
  {
    ArchiveDestinationRoundTrip(d1);
    ArchiveDestinationRoundTrip(d2);
  }

  /** What one run of the task does; both actions take the same source file. */
  datatype Action =
    | CarregarBancoProducao(arquivo: string, executionDate: Date)
    | ArquivarArquivo(arquivo: string, destino: string)

  function ProcessarPagamentos(executionDate: Date, diaSemana: int): (a: Action)
    requires ValidDate(executionDate)
    requires 0 <= diaSemana <= 6
    ensures a.arquivo == SourceFile
    ensures a.CarregarBancoProducao? <==> Route(diaSemana) == Process
    ensures a.CarregarBancoProducao? ==> a.executionDate == executionDate
    ensures a.ArquivarArquivo? ==> ParseArchiveDestination(a.destino) == Some(executionDate)
  {
    if diaSemana <= 4 then CarregarBancoProducao(SourceFile, executionDate)
    else
      ArchiveDestinationRoundTrip(executionDate);
      ArquivarArquivo(SourceFile, ArchiveDestination(executionDate))
  }

  /** A weekday run loads the file, a weekend run archives it under that date's name. */
  lemma ProcessarByWeekday(executionDate: Date, w: Weekday)
    requires ValidDate(executionDate)
    ensures ProcessarPagamentos(executionDate, WeekdayNumber(w)).CarregarBancoProducao? <==> w !in {Saturday, Sunday}
    ensures w in {Saturday, Sunday} ==>
              ProcessarPagamentos(executionDate, WeekdayNumber(w)) ==
              ArquivarArquivo(SourceFile, ArchiveDestination(executionDate))
  {
  }

  /**
   The count printed by `carregar_banco_producao`, as written: the number of
   lines minus one for the header. An empty file gives -1.
   */
  function TotalRegistros(content: string): (n: int)
    ensures n >= -1
    ensures content == "" ==> n == -1
  {
    |Lines.ReadLines(content)| - 1
  }

  /** The intended count: the lines after the header, zero when there is no header. */
  function RecordsAfterHeader(content: string): (n: nat)
    ensures content != "" ==> n + 1 == |Lines.ReadLines(content)|
    ensures content == "" ==> n == 0
  {
    var lines := Lines.ReadLines(content);
    if |lines| == 0 then 0 else |lines| - 1
  }

  /** A file of a header line followed by k record lines reports k records. */
  lemma {:induction false} RecordsAfterHeaderOfLines(header: string, records: seq<string>)
    requires Lines.WellFormed([header] + records)
    ensures RecordsAfterHeader(Lines.Join([header] + records)) == |records|
    ensures TotalRegistros(Lines.Join([header] + records)) == |records|
  {
    Lines.ReadLinesOfJoin([header] + records);
  }

  /** The as-written count goes negative on an empty file, where the intended count is 0. */
  lemma EmptyFileCount()
    ensures TotalRegistros("") == -1
    ensures RecordsAfterHeader("") == 0
  {
  }
}

=== FILE: resultados.dfy ===
/**
 The two reads `exibir_resultados` makes of the result table: the number of
 rows per kind (GROUP BY tipo_inconsistencia) and the first ten rows.
 */
module Resultados {
  import Records
  import opened Validacao

  /** `COUNT(*)` of the rows of kind `k`. */
  function CountKind(rows: seq<Discrepancy>, k: Kind): (c: nat)
    ensures c <= |rows|
    ensures c > 0 <==> exists i :: 0 <= i < |rows| && rows[i].kind == k
  {
    if |rows| == 0 then 0
    else
      var rest := CountKind(rows[1..], k);
      assert forall i :: 0 <= i < |rows[1..]| ==> rows[1..][i] == rows[i + 1];
      (if rows[0].kind == k then 1 else 0) + rest
  }

  lemma {:induction false} CountKindAppend(a: seq<Discrepancy>, b: seq<Discrepancy>, k: Kind)
    ensures CountKind(a + b, k) == CountKind(a, k) + CountKind(b, k)
  {
    if |a| > 0 {
      assert (a + b)[1..] == a[1..] + b;
      CountKindAppend(a[1..], b, k);
    } else {
      assert a + b == b;
    }
  }

  /** Every row has exactly one kind, so the per-kind counts add up to the number of rows. */
  lemma {:induction false} CountsSumToTotal(rows: seq<Discrepancy>)
    ensures CountKind(rows, AusenteGcp) + CountKind(rows, AusenteLocal) + CountKind(rows, DivergenciaValores) == |rows|
  {
    if |rows| > 0 {
      CountsSumToTotal(rows[1..]);
    }
  }

  /** The summary: one group per kind that occurs, with its count. */
  function Resumo(rows: seq<Discrepancy>): (m: map<Kind, nat>)
    ensures forall k :: k in m <==> CountKind(rows, k) > 0
    ensures forall k :: k in m ==> m[k] == CountKind(rows, k)
  {
    map k | k in {AusenteGcp, AusenteLocal, DivergenciaValores} && CountKind(rows, k) > 0 :: CountKind(rows, k)
  }

  /** The summary is empty ("no inconsistency found") exactly when the table is. */
  lemma ResumoEmptyIffNoRows(rows: seq<Discrepancy>)
    ensures Resumo(rows) == map[] <==> |rows| == 0
  {
    if |rows| > 0 {
      assert CountKind(rows, rows[0].kind) > 0;
      assert rows[0].kind in Resumo(rows);
    }
  }

  /** `LIMIT 10`: the first ten rows in insertion order, or all of them if fewer. */
  function Detalhes(rows: seq<Discrepancy>): (r: seq<Discrepancy>)
    ensures |r| == if |rows| < 10 then |rows| else 10
    ensures forall i :: 0 <= i < |r| ==> r[i] == rows[i]
  {
    if |rows| < 10 then rows else rows[..10]
  }

  /**
   The counts of a run's table are the sizes of the three passes, and the
   kinds are listed in pass order: all AUSENTE_GCP rows, then all
   AUSENTE_LOCAL rows, then all DIVERGENCIA_VALORES rows.
   */
  lemma RunCountsByPass(local: Records.Table, gcp: Records.Table, lo: int, hi: int, s: Stamp)
    ensures CountKind(Reconcile(local, gcp, lo, hi, s), AusenteGcp) == |MissingInGcp(local, gcp, lo, hi, s)|
    ensures CountKind(Reconcile(local, gcp, lo, hi, s), AusenteLocal) == |MissingLocally(local, gcp, lo, hi, s)|
    ensures CountKind(Reconcile(local, gcp, lo, hi, s), DivergenciaValores) == |Divergences(local, gcp, lo, hi, s)|
  {
    BlockCounts(MissingInGcp(local, gcp, lo, hi, s), MissingLocally(local, gcp, lo, hi, s),
                Divergences(local, gcp, lo, hi, s));
  }

  /** Counting three blocks of uniform kinds, appended in pass order. */
  lemma BlockCounts(p1: seq<Discrepancy>, p2: seq<Discrepancy>, p3: seq<Discrepancy>)
    requires forall d :: d in p1 ==> d.kind == AusenteGcp
    requires forall d :: d in p2 ==> d.kind == AusenteLocal
    requires forall d :: d in p3 ==> d.kind == DivergenciaValores
    ensures CountKind(p1 + p2 + p3, AusenteGcp) == |p1|
    ensures CountKind(p1 + p2 + p3, AusenteLocal) == |p2|
    ensures CountKind(p1 + p2 + p3, DivergenciaValores) == |p3|
  {
    CountKindAppend(p1 + p2, p3, AusenteGcp);
    CountKindAppend(p1, p2, AusenteGcp);
    CountKindAppend(p1 + p2, p3, AusenteLocal);
    CountKindAppend(p1, p2, AusenteLocal);
    CountKindAppend(p1 + p2, p3, DivergenciaValores);
    CountKindAppend(p1, p2, DivergenciaValores);
    UniformCount(p1, AusenteGcp);
    UniformCount(p2, AusenteLocal);
    UniformCount(p3, DivergenciaValores);
  }

  /** In a block of rows all of one kind, that kind counts every row and the others count none. */
  lemma {:induction false} UniformCount(rows: seq<Discrepancy>, k: Kind)
    requires forall d :: d in rows ==> d.kind == k
    ensures CountKind(rows, k) == |rows|
    ensures forall k' :: k' != k ==> CountKind(rows, k') == 0
  {
    if |rows| > 0 {
      assert forall d :: d in rows[1..] ==> d in rows;
      UniformCount(rows[1..], k);
    }
  }
}

=== FILE: sql.dfy ===
/**
 The fragment of SQLite's expression semantics that the reconciliation
 queries rely on: three-valued comparison and OR, COALESCE, and `||`
 string concatenation with NULL propagation.
 */
module Sql {
  import opened Wrappers

  /** SQL truth values: a comparison involving NULL is Unknown. */
  datatype Truth = True | False | Unknown

  /**
   `a != b` in SQL: Unknown when either operand is NULL, otherwise the
   ordinary inequality of the two values.
   */
  function Ne(a: Option<string>, b: Option<string>): (t: Truth)
    ensures t == True <==> a.Some? && b.Some? && a.value != b.value
    ensures t == Unknown <==> a.None? || b.None?
  {
    if a.None? || b.None? then Unknown
    else if a.value != b.value then True
    else False
  }

  /** Kleene OR: True dominates, then Unknown, then False. */
  function Or(a: Truth, b: Truth): (t: Truth)
    ensures t == True <==> a == True || b == True
    ensures t == False <==> a == False && b == False
  {
    if a == True || b == True then True
    else if a == False && b == False then False
    else Unknown
  }

  /** `COALESCE(a, d)`: the value of `a`, or `d` when `a` is NULL. */
  function Coalesce(a: Option<string>, d: string): (s: string)
    ensures a.Some? ==> s == a.value
    ensures a.None? ==> s == d
  {
    a.GetOr(d)
  }

  /** `a || b`: NULL when either operand is NULL, otherwise the concatenation. */
  function Concat(a: Option<string>, b: Option<string>): (c: Option<string>)
    ensures c.Some? <==> a.Some? && b.Some?
    ensures c.Some? ==> c.value == a.value + b.value
  {
    if a.Some? && b.Some? then Some(a.value + b.value) else None
  }

  /** A WHERE clause keeps a row only when its condition is True, not Unknown. */
  predicate Holds(t: Truth) {
    t == True
  }

  /** A NULL operand can never make `!=` hold, whatever the other operand is. */
  lemma NullNeverDiffers(a: Option<string>, b: Option<string>)
    requires a.None? || b.None?
    ensures !Holds(Ne(a, b))
  {
  }

  /** After `COALESCE(x, '')` on both sides, NULL and '' compare equal and two NULLs compare equal. */
  lemma CoalesceEmptyIdentifiesNull(a: Option<string>, b: Option<string>)
    requires a == None || a == Some("")
    requires b == None || b == Some("")
    ensures Ne(Some(Coalesce(a, "")), Some(Coalesce(b, ""))) == False
  {
  }
}

=== FILE: validacao.dfy ===
/**
 The local-vs-GCP reconciliation of `executar_validacao`: three INSERT ... SELECT
 passes over the two record tables, restricted to an inclusive ID range,
 appended to a result table that is emptied first.
 */
module Validacao {
  import opened Wrappers
  import opened Records
  import opened Sql
  import Digits

  /** The `tipo_inconsistencia` column. */
  datatype Kind = AusenteGcp | AusenteLocal | DivergenciaValores

  /** The text stored in `tipo_inconsistencia`. */
  function KindName(k: Kind): string {
    match k
    case AusenteGcp => "AUSENTE_GCP"
    case AusenteLocal => "AUSENTE_LOCAL"
    case DivergenciaValores => "DIVERGENCIA_VALORES"
  }

  /** Distinct kinds are stored as distinct texts, so grouping by the text groups by kind. */
  lemma KindNameInjective(k1: Kind, k2: Kind)
    requires KindName(k1) == KindName(k2)
    ensures k1 == k2
  {
  }

  /** Position of a kind in the order the three passes append their rows. */
  function Rank(k: Kind): nat {
    match k
    case AusenteGcp => 0
    case AusenteLocal => 1
    case DivergenciaValores => 2
  }

  /** The two run timestamps, read from the clock once per run. */
  datatype Stamp = Stamp(dataValidacao: string, dataProcessamento: string)

  /** One row of `tb_inconsistencias_aplicacoes`. */
  datatype Discrepancy = Discrepancy(
    kind: Kind,
    id: int,
    descricao: string,
    dadosLocal: Option<string>,
    dadosGcp: Option<string>,
    dataValidacao: string,
    dataProcessamento: string)

  /** `ID BETWEEN lo AND hi`: inclusive at both ends, empty when lo > hi. */
  predicate InRange(x: int, lo: int, hi: int) {
    lo <= x && x <= hi
  }

  /** `a || '|' || b` */
  function Piped(a: Option<string>, b: Option<string>): Option<string> {
    Concat(Concat(a, Some("|")), b)
  }

  /** `dados_*` of an AUSENTE row: gender|income|income type, NULL if any of them is NULL. */
  function MissingSnapshot(r: Record): (snap: Option<string>)
    ensures snap.Some? <==> r.codeGender.Some? && r.amtIncomeTotal.Some? && r.nameIncomeType.Some?
    ensures snap.Some? ==>
              snap.value == r.codeGender.value + "|" + r.amtIncomeTotal.value + "|" + r.nameIncomeType.value
  {
    Piped(Piped(r.codeGender, r.amtIncomeTotal), r.nameIncomeType)
  }

  /**
   `dados_*` of a DIVERGENCIA_VALORES row: gender|income|days of birth|occupation,
   with only the occupation protected from NULL by `COALESCE(..., 'NULL')`.
   */
  function DivergenceSnapshot(r: Record): (snap: Option<string>)
    ensures snap.Some? <==> r.codeGender.Some? && r.amtIncomeTotal.Some? && r.daysBirth.Some?
    ensures snap.Some? ==>
              snap.value ==
              r.codeGender.value + "|" + r.amtIncomeTotal.value + "|" + r.daysBirth.value + "|" +
              (if r.occupationType.Some? then r.occupationType.value else "NULL")
  {
    Piped(Piped(Piped(r.codeGender, r.amtIncomeTotal), r.daysBirth), Some(Coalesce(r.occupationType, "NULL")))
  }

  const DescricaoPrefix := "Registro ID "

  function DescricaoSuffix(k: Kind): string {
    match k
    case AusenteGcp => " existe no local mas não foi encontrado no GCP"
    case AusenteLocal => " existe no GCP mas não foi encontrado no local"
    case DivergenciaValores => " possui valores divergentes entre local e GCP"
  }

  /** Slicing `p + m + q` at the part boundaries gives the parts back. */
  lemma SplitConcat(p: string, m: string, q: string)
    ensures (p + m + q)[..|p|] == p
    ensures (p + m + q)[|p|..|p| + |m|] == m
    ensures (p + m + q)[|p| + |m|..] == q
  {
  }

  /** The `descricao` column: the ID's decimal text between a fixed prefix and a per-kind suffix. */
  function Descricao(k: Kind, id: int): (text: string)
    ensures |text| == |DescricaoPrefix| + |Digits.IntText(id)| + |DescricaoSuffix(k)|
    ensures text[..|DescricaoPrefix|] == DescricaoPrefix
    ensures text[|DescricaoPrefix|..|DescricaoPrefix| + |Digits.IntText(id)|] == Digits.IntText(id)
    ensures text[|DescricaoPrefix| + |Digits.IntText(id)|..] == DescricaoSuffix(k)
  {
    SplitConcat(DescricaoPrefix, Digits.IntText(id), DescricaoSuffix(k));
    DescricaoPrefix + Digits.IntText(id) + DescricaoSuffix(k)
  }

  /** The fifth-last and last characters of each kind's suffix. */
  function Marks(k: Kind): (char, char) {
    match k
    case AusenteGcp => ('o', 'P')
    case AusenteLocal => ('l', 'l')
    case DivergenciaValores => ('e', 'P')
  }

  lemma SuffixMarks(k: Kind)
    ensures |DescricaoSuffix(k)| >= 5
    ensures (DescricaoSuffix(k)[|DescricaoSuffix(k)| - 5], DescricaoSuffix(k)[|DescricaoSuffix(k)| - 1]) == Marks(k)
  {
  }

  /** Two suffixes that both end the same text agree on its last characters. */
  lemma SameEnding(t: string, o1: nat, s1: string, o2: nat, s2: string, back: nat)
    requires o1 <= |t| && t[o1..] == s1
    requires o2 <= |t| && t[o2..] == s2
    requires 1 <= back <= |s1| && back <= |s2|
    ensures s1[|s1| - back] == s2[|s2| - back]
  {
    assert s1[|s1| - back] == t[|t| - back] == s2[|s2| - back];
  }

  /** A text ends with at most one kind's suffix. */
  lemma SuffixDeterminesKind(t: string, o1: nat, k1: Kind, o2: nat, k2: Kind)
    requires o1 <= |t| && t[o1..] == DescricaoSuffix(k1)
    requires o2 <= |t| && t[o2..] == DescricaoSuffix(k2)
    ensures k1 == k2
  {
    SuffixMarks(k1);
    SuffixMarks(k2);
    SameEnding(t, o1, DescricaoSuffix(k1), o2, DescricaoSuffix(k2), 5);
    SameEnding(t, o1, DescricaoSuffix(k1), o2, DescricaoSuffix(k2), 1);
    assert Marks(k1) == Marks(k2);
  }

  /** The suffix of a description, hence its kind, is fixed by the text. */
  lemma DescricaoKind(k1: Kind, a: int, k2: Kind, b: int)
    requires Descricao(k1, a) == Descricao(k2, b)
    ensures k1 == k2
  {
    SuffixDeterminesKind(Descricao(k1, a), |DescricaoPrefix| + |Digits.IntText(a)|, k1,
                         |DescricaoPrefix| + |Digits.IntText(b)|, k2);
  }

  /** A description determines both the kind and the ID it was written for. */
  lemma DescricaoInjective(k1: Kind, a: int, k2: Kind, b: int)
    requires Descricao(k1, a) == Descricao(k2, b)
    ensures k1 == k2 && a == b
  {
    DescricaoKind(k1, a, k2, b);
    var t := Descricao(k1, a);
    var n := |DescricaoPrefix|;
    assert Digits.IntText(a) == t[n..n + |Digits.IntText(a)|] == Digits.IntText(b);
    Digits.IntTextRoundTrip(a);
    Digits.IntTextRoundTrip(b);
  }

  function MissingInGcpRow(l: Record, s: Stamp): Discrepancy {
    Discrepancy(AusenteGcp, l.id, Descricao(AusenteGcp, l.id), MissingSnapshot(l), None,
                s.dataValidacao, s.dataProcessamento)
  }

  function MissingLocallyRow(g: Record, s: Stamp): Discrepancy {
    Discrepancy(AusenteLocal, g.id, Descricao(AusenteLocal, g.id), None, MissingSnapshot(g),
                s.dataValidacao, s.dataProcessamento)
  }

  function DivergenceRow(l: Record, g: Record, s: Stamp): Discrepancy {
    Discrepancy(DivergenciaValores, l.id, Descricao(DivergenciaValores, l.id),
                DivergenceSnapshot(l), DivergenceSnapshot(g), s.dataValidacao, s.dataProcessamento)
  }

  /** Two-valued reading of SQL `!=`: both sides present and different. */
  predicate Differs(a: Option<Value>, b: Option<Value>) {
    a.Some? && b.Some? && a.value != b.value
  }

  /**
   Reference definition of a divergence: one of five fields present on both
   sides with different values, or the occupations different once NULL is read as ''.
   */
  predicate FieldsDiffer(l: Record, g: Record) {
    || Differs(l.codeGender, g.codeGender)
    || Differs(l.amtIncomeTotal, g.amtIncomeTotal)
    || Differs(l.daysBirth, g.daysBirth)
    || l.occupationType.GetOr("") != g.occupationType.GetOr("")
    || Differs(l.flagOwnCar, g.flagOwnCar)
    || Differs(l.flagOwnRealty, g.flagOwnRealty)
  }

  /**
   The WHERE condition of the divergence pass, evaluated in SQL's three-valued
   logic: TRUE exactly when the reference definition finds a difference, and
   FALSE exactly when all six fields are present on both sides (occupation
   after COALESCE) and equal.
   */
  function DivergenceCondition(l: Record, g: Record): (t: Truth)
    ensures t == True <==> FieldsDiffer(l, g)
    ensures t == False <==>
              && l.codeGender.Some? && l.codeGender == g.codeGender
              && l.amtIncomeTotal.Some? && l.amtIncomeTotal == g.amtIncomeTotal
              && l.daysBirth.Some? && l.daysBirth == g.daysBirth
              && l.occupationType.GetOr("") == g.occupationType.GetOr("")
              && l.flagOwnCar.Some? && l.flagOwnCar == g.flagOwnCar
              && l.flagOwnRealty.Some? && l.flagOwnRealty == g.flagOwnRealty
  {
    Or(Ne(l.codeGender, g.codeGender),
    Or(Ne(l.amtIncomeTotal, g.amtIncomeTotal),
    Or(Ne(l.daysBirth, g.daysBirth),
    Or(Ne(Some(Coalesce(l.occupationType, "")), Some(Coalesce(g.occupationType, ""))),
    Or(Ne(l.flagOwnCar, g.flagOwnCar),
       Ne(l.flagOwnRealty, g.flagOwnRealty))))))
  }

  predicate Diverges(l: Record, g: Record) {
    Holds(DivergenceCondition(l, g))
  }

  /** The row carries the run's two timestamps. */
  predicate Stamped(d: Discrepancy, s: Stamp) {
    d.dataValidacao == s.dataValidacao && d.dataProcessamento == s.dataProcessamento
  }

  /**
   What a row of kind `d.kind` says about the two tables: which of them hold
   the row's ID, and which snapshot is NULL.
   */
  predicate Classified(d: Discrepancy, local: Table, gcp: Table) {
    match d.kind
    case AusenteGcp => Find(local, d.id).Some? && Find(gcp, d.id).None? && d.dadosGcp.None?
    case AusenteLocal => Find(local, d.id).None? && Find(gcp, d.id).Some? && d.dadosLocal.None?
    case DivergenciaValores => Find(local, d.id).Some? && Find(gcp, d.id).Some?
  }

  /** Pass 1: local rows in range with no GCP row of the same ID (LEFT JOIN ... WHERE g.ID IS NULL). */
  function MissingInGcp(local: Table, gcp: Table, lo: int, hi: int, s: Stamp): (r: seq<Discrepancy>)
    ensures |r| <= |local|
    ensures forall d :: d in r ==>
              d.kind == AusenteGcp && InRange(d.id, lo, hi) && Find(gcp, d.id).None? &&
              Find(local, d.id).Some? && d.dadosGcp.None? && Stamped(d, s) &&
              exists l :: l in local && d == MissingInGcpRow(l, s)
    ensures forall l {:trigger MissingInGcpRow(l, s)} :: l in local && InRange(l.id, lo, hi) && Find(gcp, l.id).None? ==>
              MissingInGcpRow(l, s) in r
  {
    if |local| == 0 then []
    else
      var l := local[0];
      (if InRange(l.id, lo, hi) && Find(gcp, l.id).None? then [MissingInGcpRow(l, s)] else [])
      + MissingInGcp(local[1..], gcp, lo, hi, s)
  }

  /** Pass 2: GCP rows in range with no local row of the same ID. */
  function MissingLocally(local: Table, gcp: Table, lo: int, hi: int, s: Stamp): (r: seq<Discrepancy>)
    ensures |r| <= |gcp|
    ensures forall d :: d in r ==>
              d.kind == AusenteLocal && InRange(d.id, lo, hi) && Find(local, d.id).None? &&
              Find(gcp, d.id).Some? && d.dadosLocal.None? && Stamped(d, s) &&
              exists g :: g in gcp && d == MissingLocallyRow(g, s)
    ensures forall g {:trigger MissingLocallyRow(g, s)} :: g in gcp && InRange(g.id, lo, hi) && Find(local, g.id).None? ==>
              MissingLocallyRow(g, s) in r
  {
    if |gcp| == 0 then []
    else
      var g := gcp[0];
      (if InRange(g.id, lo, hi) && Find(local, g.id).None? then [MissingLocallyRow(g, s)] else [])
      + MissingLocally(local, gcp[1..], lo, hi, s)
  }

  /** The INNER JOIN partners of one local row `l` that diverge from it. */
  function DivergentPartners(l: Record, gcp: Table, lo: int, hi: int, s: Stamp): (r: seq<Discrepancy>)
    ensures |r| <= |gcp|
    ensures forall d :: d in r ==>
              d.kind == DivergenciaValores && d.id == l.id && InRange(l.id, lo, hi) &&
              exists g :: g in gcp && g.id == l.id && Diverges(l, g) && d == DivergenceRow(l, g, s)
    ensures forall g {:trigger DivergenceRow(l, g, s)} :: g in gcp && g.id == l.id && InRange(l.id, lo, hi) && Diverges(l, g) ==>
              DivergenceRow(l, g, s) in r
  {
    if |gcp| == 0 then []
    else
      var g := gcp[0];
      (if g.id == l.id && InRange(l.id, lo, hi) && Diverges(l, g) then [DivergenceRow(l, g, s)] else [])
      + DivergentPartners(l, gcp[1..], lo, hi, s)
  }

  /** Pass 3: joined pairs in range whose compared fields diverge. */
  function Divergences(local: Table, gcp: Table, lo: int, hi: int, s: Stamp): (r: seq<Discrepancy>)
    ensures forall d :: d in r ==>
              d.kind == DivergenciaValores && InRange(d.id, lo, hi) &&
              Find(local, d.id).Some? && Find(gcp, d.id).Some? && Stamped(d, s) &&
              exists l, g :: l in local && g in gcp && l.id == g.id && Diverges(l, g) && d == DivergenceRow(l, g, s)
    ensures forall l, g {:trigger DivergenceRow(l, g, s)} :: l in local && g in gcp && l.id == g.id && InRange(l.id, lo, hi) && Diverges(l, g) ==>
              DivergenceRow(l, g, s) in r
  {
    if |local| == 0 then []
    else DivergentPartners(local[0], gcp, lo, hi, s) + Divergences(local[1..], gcp, lo, hi, s)
  }

  /** The rows one run inserts: the three passes in the order they execute. */
  function Reconcile(local: Table, gcp: Table, lo: int, hi: int, s: Stamp): (r: seq<Discrepancy>)
    ensures forall d :: d in r ==> InRange(d.id, lo, hi) && Stamped(d, s) && Classified(d, local, gcp)
    ensures forall i, j :: 0 <= i < j < |r| ==> Rank(r[i].kind) <= Rank(r[j].kind)
    ensures forall i, j :: 0 <= i < |r| && 0 <= j < |r| && r[i].id == r[j].id ==> r[i].kind == r[j].kind
  {
    var p1 := MissingInGcp(local, gcp, lo, hi, s);
    var p2 := MissingLocally(local, gcp, lo, hi, s);
    var p3 := Divergences(local, gcp, lo, hi, s);
    GroupedByKind(p1, p2, p3);
    var r := p1 + p2 + p3;
    KindFollowsId(r, local, gcp);
    r
  }

  /** Three blocks of uniform kinds, appended in pass order, are ordered by kind. */
  lemma GroupedByKind(p1: seq<Discrepancy>, p2: seq<Discrepancy>, p3: seq<Discrepancy>)
    requires forall d :: d in p1 ==> d.kind == AusenteGcp
    requires forall d :: d in p2 ==> d.kind == AusenteLocal
    requires forall d :: d in p3 ==> d.kind == DivergenciaValores
    ensures forall i, j :: 0 <= i < j < |p1 + p2 + p3| ==> Rank((p1 + p2 + p3)[i].kind) <= Rank((p1 + p2 + p3)[j].kind)
  {
    var r := p1 + p2 + p3;
    forall i | 0 <= i < |r|
      ensures Rank(r[i].kind) == if i < |p1| then 0 else if i < |p1| + |p2| then 1 else 2
    {
      if i < |p1| {
        assert r[i] == p1[i];
      } else if i < |p1| + |p2| {
        assert r[i] == p2[i - |p1|];
      } else {
        assert r[i] == p3[i - |p1| - |p2|];
      }
    }
  }

  /** Which tables hold an ID fixes the kind of every row about that ID. */
  lemma KindFollowsId(r: seq<Discrepancy>, local: Table, gcp: Table)
    requires forall d :: d in r ==> Classified(d, local, gcp)
    ensures forall i, j :: 0 <= i < |r| && 0 <= j < |r| && r[i].id == r[j].id ==> r[i].kind == r[j].kind
  {
    forall i, j | 0 <= i < |r| && 0 <= j < |r| && r[i].id == r[j].id
      ensures r[i].kind == r[j].kind
    {
      assert Classified(r[i], local, gcp) && Classified(r[j], local, gcp);
    }
  }

  /**
   One call of `executar_validacao`: whatever the result table held is deleted,
   then the rows of the three passes are inserted.
   */
  function ExecutarValidacao(previous: seq<Discrepancy>, local: Table, gcp: Table, lo: int, hi: int, s: Stamp)
    : (table: seq<Discrepancy>)
    ensures forall d :: d in table ==> InRange(d.id, lo, hi) && Stamped(d, s) && Classified(d, local, gcp)
  {
    Reconcile(local, gcp, lo, hi, s)
  }
}

=== FILE: validacao_examples.dfy ===
/** Small worked instances of the reconciliation. */
module ValidacaoExamples {
  import opened Wrappers
  import opened Records
  import opened Validacao

  function Applicant(id: int, gender: string, income: string): Record {
    Record(id, Some(gender), Some(income), None, None, None, None, None)
  }

  /** Unfolds the three passes for one record on each side. */
  lemma OneAgainstOne(l: Record, g: Record, lo: int, hi: int, s: Stamp)
    requires l.id == g.id
    ensures Reconcile([l], [g], lo, hi, s) ==
            if InRange(l.id, lo, hi) && Diverges(l, g) then [DivergenceRow(l, g, s)] else []
  {
    assert [l][1..] == [] && [g][1..] == [];
    assert Find([g], l.id) == Some(g) && Find([l], g.id) == Some(l);
    assert MissingInGcp([l], [g], lo, hi, s) == [];
    assert MissingLocally([l], [g], lo, hi, s) == [];
    assert DivergentPartners(l, [g], lo, hi, s) ==
           (if InRange(l.id, lo, hi) && Diverges(l, g) then [DivergenceRow(l, g, s)] else []) +
           DivergentPartners(l, [], lo, hi, s);
    assert Divergences([l], [g], lo, hi, s) == DivergentPartners(l, [g], lo, hi, s) + Divergences([], [g], lo, hi, s);
  }

  /**
   A local record with no GCP counterpart, at the single-ID range [1, 1], is
   reported once as AUSENTE_GCP; its snapshot is NULL because its income type is NULL.
   */
  lemma LocalOnlyRecord(s: Stamp)
    ensures Reconcile([Applicant(1, "M", "1000")], [], 1, 1, s) == [MissingInGcpRow(Applicant(1, "M", "1000"), s)]
    ensures MissingInGcpRow(Applicant(1, "M", "1000"), s).dadosLocal == None
  {
    var l := Applicant(1, "M", "1000");
    assert [l][1..] == [];
    assert MissingInGcp([l], [], 1, 1, s) == [MissingInGcpRow(l, s)] + MissingInGcp([], [], 1, 1, s);
    assert Divergences([l], [], 1, 1, s) == DivergentPartners(l, [], 1, 1, s) + Divergences([], [], 1, 1, s);
  }

  /** The same ID with different incomes is reported once as DIVERGENCIA_VALORES. */
  lemma IncomeMismatch(s: Stamp)
    ensures Reconcile([Applicant(2, "F", "500")], [Applicant(2, "F", "600")], 1, 10, s) ==
            [DivergenceRow(Applicant(2, "F", "500"), Applicant(2, "F", "600"), s)]
  {
    OneAgainstOne(Applicant(2, "F", "500"), Applicant(2, "F", "600"), 1, 10, s);
  }

  /** Identical records produce no row. */
  lemma IdenticalRecords(s: Stamp)
    ensures Reconcile([Applicant(3, "F", "500")], [Applicant(3, "F", "500")], 1, 10, s) == []
  {
    OneAgainstOne(Applicant(3, "F", "500"), Applicant(3, "F", "500"), 1, 10, s);
  }

  /** A record whose only difference is a NULL on one side produces no row. */
  lemma NullOnOneSide(s: Stamp)
    ensures Reconcile([Applicant(4, "F", "500")], [Applicant(4, "F", "500").(amtIncomeTotal := None)], 1, 10, s) == []
  {
    OneAgainstOne(Applicant(4, "F", "500"), Applicant(4, "F", "500").(amtIncomeTotal := None), 1, 10, s);
  }
}

=== FILE: validacao_props.dfy ===
/**
 Properties of the reconciliation that relate several calls or quantify over
 IDs: each missing or divergent ID is reported exactly once, the kinds are
 disjoint, the comparison follows SQL NULL semantics, and a run replaces the
 previous one so re-running differs only in the timestamps.
 */
module ValidacaoProps {
  import opened Wrappers
  import opened Records
  import opened Sql
  import opened Validacao

  /** Number of rows of kind `k` about ID `x`. */
  function Occurrences(rows: seq<Discrepancy>, k: Kind, x: int): nat {
    if |rows| == 0 then 0
    else (if rows[0].kind == k && rows[0].id == x then 1 else 0) + Occurrences(rows[1..], k, x)
  }

  lemma {:induction false} OccurrencesAppend(a: seq<Discrepancy>, b: seq<Discrepancy>, k: Kind, x: int)
    ensures Occurrences(a + b, k, x) == Occurrences(a, k, x) + Occurrences(b, k, x)
  {
    if |a| > 0 {
      assert (a + b)[1..] == a[1..] + b;
      OccurrencesAppend(a[1..], b, k, x);
    } else {
      assert a + b == b;
    }
  }

  lemma {:induction false} OccurrencesOtherKind(rows: seq<Discrepancy>, k: Kind, x: int)
    requires forall d :: d in rows ==> d.kind != k
    ensures Occurrences(rows, k, x) == 0
  {
    if |rows| > 0 {
      assert rows[0] in rows;
      assert forall d :: d in rows[1..] ==> d in rows;
      OccurrencesOtherKind(rows[1..], k, x);
    }
  }

  // ---------------------------------------------------------------------------
  // The comparison of the divergence pass
  // ---------------------------------------------------------------------------

  /** The three-valued WHERE condition keeps a pair exactly when the reference definition says it differs. */
  lemma DivergesIffFieldsDiffer(l: Record, g: Record)
    ensures Diverges(l, g) <==> FieldsDiffer(l, g)
  {
  }

  /** Records that agree on all six compared fields never diverge. */
  lemma AgreeingRecordsDoNotDiverge(l: Record, g: Record)
    requires l.codeGender == g.codeGender && l.amtIncomeTotal == g.amtIncomeTotal
    requires l.daysBirth == g.daysBirth && l.occupationType == g.occupationType
    requires l.flagOwnCar == g.flagOwnCar && l.flagOwnRealty == g.flagOwnRealty
    ensures !Diverges(l, g)
  {
  }

  /**
   The occupation comparison is NULL-safe: when each side is NULL or '', the
   occupation plays no part in the verdict; a NULL against a non-empty
   occupation is a divergence.
   */
  lemma OccupationNullSafe(l: Record, g: Record)
    ensures (l.occupationType == None || l.occupationType == Some("")) &&
            (g.occupationType == None || g.occupationType == Some("")) ==>
              (Diverges(l, g) <==> Diverges(l.(occupationType := None), g.(occupationType := None)))
    ensures l.occupationType == None && g.occupationType.Some? && g.occupationType.value != "" ==> Diverges(l, g)
    ensures g.occupationType == None && l.occupationType.Some? && l.occupationType.value != "" ==> Diverges(l, g)
  {
  }

  /**
   A NULL in one of the five plainly compared fields never by itself makes a
   divergence: replacing that field of one side by NULL cannot turn a
   non-divergent pair into a divergent one.
   */
  lemma NullNeverCreatesDivergence(l: Record, g: Record)
    requires !Diverges(l, g)
    ensures !Diverges(l.(codeGender := None), g)
    ensures !Diverges(l.(amtIncomeTotal := None), g)
    ensures !Diverges(l.(daysBirth := None), g)
    ensures !Diverges(l.(flagOwnCar := None), g)
    ensures !Diverges(l.(flagOwnRealty := None), g)
    ensures !Diverges(l, g.(codeGender := None))
    ensures !Diverges(l, g.(amtIncomeTotal := None))
    ensures !Diverges(l, g.(daysBirth := None))
    ensures !Diverges(l, g.(flagOwnCar := None))
    ensures !Diverges(l, g.(flagOwnRealty := None))
  {
  }

  // ---------------------------------------------------------------------------
  // Exactly one row per missing or divergent ID
  // ---------------------------------------------------------------------------

  lemma {:induction false} MissingInGcpCount(local: Table, gcp: Table, lo: int, hi: int, s: Stamp, x: int)
    requires UniqueIds(local)
    ensures Occurrences(MissingInGcp(local, gcp, lo, hi, s), AusenteGcp, x) ==
            if InRange(x, lo, hi) && Find(local, x).Some? && Find(gcp, x).None? then 1 else 0
  {
    if |local| > 0 {
      var l := local[0];
      var head := if InRange(l.id, lo, hi) && Find(gcp, l.id).None? then [MissingInGcpRow(l, s)] else [];
      UniqueTail(local);
      MissingInGcpCount(local[1..], gcp, lo, hi, s, x);
      OccurrencesAppend(head, MissingInGcp(local[1..], gcp, lo, hi, s), AusenteGcp, x);
    }
  }

  lemma {:induction false} MissingLocallyCount(local: Table, gcp: Table, lo: int, hi: int, s: Stamp, x: int)
    requires UniqueIds(gcp)
    ensures Occurrences(MissingLocally(local, gcp, lo, hi, s), AusenteLocal, x) ==
            if InRange(x, lo, hi) && Find(gcp, x).Some? && Find(local, x).None? then 1 else 0
  {
    if |gcp| > 0 {
      var g := gcp[0];
      var head := if InRange(g.id, lo, hi) && Find(local, g.id).None? then [MissingLocallyRow(g, s)] else [];
      UniqueTail(gcp);
      MissingLocallyCount(local, gcp[1..], lo, hi, s, x);
      OccurrencesAppend(head, MissingLocally(local, gcp[1..], lo, hi, s), AusenteLocal, x);
    }
  }

  lemma {:induction false} DivergentPartnersCount(l: Record, gcp: Table, lo: int, hi: int, s: Stamp, x: int)
    requires UniqueIds(gcp)
    ensures Occurrences(DivergentPartners(l, gcp, lo, hi, s), DivergenciaValores, x) ==
            if l.id == x && InRange(x, lo, hi) && Find(gcp, x).Some? && Diverges(l, Find(gcp, x).value) then 1 else 0
  {
    if |gcp| > 0 {
      var g := gcp[0];
      var head := if g.id == l.id && InRange(l.id, lo, hi) && Diverges(l, g) then [DivergenceRow(l, g, s)] else [];
      UniqueTail(gcp);
      DivergentPartnersCount(l, gcp[1..], lo, hi, s, x);
      OccurrencesAppend(head, DivergentPartners(l, gcp[1..], lo, hi, s), DivergenciaValores, x);
    }
  }

  lemma {:induction false} DivergencesCount(local: Table, gcp: Table, lo: int, hi: int, s: Stamp, x: int)
    requires UniqueIds(local) && UniqueIds(gcp)
    ensures Occurrences(Divergences(local, gcp, lo, hi, s), DivergenciaValores, x) ==
            if InRange(x, lo, hi) && Find(local, x).Some? && Find(gcp, x).Some? &&
               Diverges(Find(local, x).value, Find(gcp, x).value) then 1 else 0
  {
    if |local| > 0 {
      UniqueTail(local);
      DivergentPartnersCount(local[0], gcp, lo, hi, s, x);
      DivergencesCount(local[1..], gcp, lo, hi, s, x);
      OccurrencesAppend(DivergentPartners(local[0], gcp, lo, hi, s), Divergences(local[1..], gcp, lo, hi, s),
                        DivergenciaValores, x);
    }
  }

  /** Splits the count of a kind in a run's rows into the counts of the three passes. */
  lemma {:induction false} ReconcileOccurrences(local: Table, gcp: Table, lo: int, hi: int, s: Stamp, k: Kind, x: int)
    ensures Occurrences(Reconcile(local, gcp, lo, hi, s), k, x) ==
            Occurrences(MissingInGcp(local, gcp, lo, hi, s), k, x) +
            Occurrences(MissingLocally(local, gcp, lo, hi, s), k, x) +
            Occurrences(Divergences(local, gcp, lo, hi, s), k, x)
  {
    var p1 := MissingInGcp(local, gcp, lo, hi, s);
    var p2 := MissingLocally(local, gcp, lo, hi, s);
    var p3 := Divergences(local, gcp, lo, hi, s);
    OccurrencesAppend(p1 + p2, p3, k, x);
    OccurrencesAppend(p1, p2, k, x);
  }

  /**
   With unique local IDs, an ID gets exactly one AUSENTE_GCP row when it is in
   range, present locally and absent from GCP, and none otherwise.
   */
  lemma {:induction false} ExactlyOneMissingInGcp(local: Table, gcp: Table, lo: int, hi: int, s: Stamp, x: int)
    requires UniqueIds(local)
    ensures Occurrences(Reconcile(local, gcp, lo, hi, s), AusenteGcp, x) ==
            if InRange(x, lo, hi) && Find(local, x).Some? && Find(gcp, x).None? then 1 else 0
  {
    ReconcileOccurrences(local, gcp, lo, hi, s, AusenteGcp, x);
    MissingInGcpCount(local, gcp, lo, hi, s, x);
    OccurrencesOtherKind(MissingLocally(local, gcp, lo, hi, s), AusenteGcp, x);
    OccurrencesOtherKind(Divergences(local, gcp, lo, hi, s), AusenteGcp, x);
  }

  /** Symmetric: exactly one AUSENTE_LOCAL row per in-range GCP ID missing locally. */
  lemma {:induction false} ExactlyOneMissingLocally(local: Table, gcp: Table, lo: int, hi: int, s: Stamp, x: int)
    requires UniqueIds(gcp)
    ensures Occurrences(Reconcile(local, gcp, lo, hi, s), AusenteLocal, x) ==
            if InRange(x, lo, hi) && Find(gcp, x).Some? && Find(local, x).None? then 1 else 0
  {
    ReconcileOccurrences(local, gcp, lo, hi, s, AusenteLocal, x);
    MissingLocallyCount(local, gcp, lo, hi, s, x);
    OccurrencesOtherKind(MissingInGcp(local, gcp, lo, hi, s), AusenteLocal, x);
    OccurrencesOtherKind(Divergences(local, gcp, lo, hi, s), AusenteLocal, x);
  }

  /**
   A shared in-range ID gets one DIVERGENCIA_VALORES row iff its two records
   diverge on the compared fields, and none otherwise.
   */
  lemma {:induction false} ExactlyOneDivergence(local: Table, gcp: Table, lo: int, hi: int, s: Stamp, x: int)
    requires UniqueIds(local) && UniqueIds(gcp)
    ensures Occurrences(Reconcile(local, gcp, lo, hi, s), DivergenciaValores, x) ==
            if InRange(x, lo, hi) && Find(local, x).Some? && Find(gcp, x).Some? &&
               FieldsDiffer(Find(local, x).value, Find(gcp, x).value) then 1 else 0
  {
    ReconcileOccurrences(local, gcp, lo, hi, s, DivergenciaValores, x);
    OccurrencesOtherKind(MissingInGcp(local, gcp, lo, hi, s), DivergenciaValores, x);
    OccurrencesOtherKind(MissingLocally(local, gcp, lo, hi, s), DivergenciaValores, x);
    DivergencesCountByFields(local, gcp, lo, hi, s, x);
  }

  lemma {:induction false} DivergencesCountByFields(local: Table, gcp: Table, lo: int, hi: int, s: Stamp, x: int)
    requires UniqueIds(local) && UniqueIds(gcp)
    ensures Occurrences(Divergences(local, gcp, lo, hi, s), DivergenciaValores, x) ==
            if InRange(x, lo, hi) && Find(local, x).Some? && Find(gcp, x).Some? &&
               FieldsDiffer(Find(local, x).value, Find(gcp, x).value) then 1 else 0
  {
    DivergencesCount(local, gcp, lo, hi, s, x);
    if Find(local, x).Some? && Find(gcp, x).Some? {
      DivergesIffFieldsDiffer(Find(local, x).value, Find(gcp, x).value);
    }
  }

  /** With unique IDs on both sides, no ID is reported more than once, under any kind. */
  lemma {:induction false} AtMostOneRowPerId(local: Table, gcp: Table, lo: int, hi: int, s: Stamp, x: int)
    requires UniqueIds(local) && UniqueIds(gcp)
    ensures Occurrences(Reconcile(local, gcp, lo, hi, s), AusenteGcp, x) +
            Occurrences(Reconcile(local, gcp, lo, hi, s), AusenteLocal, x) +
            Occurrences(Reconcile(local, gcp, lo, hi, s), DivergenciaValores, x) <= 1
  {
    ExactlyOneMissingInGcp(local, gcp, lo, hi, s, x);
    ExactlyOneMissingLocally(local, gcp, lo, hi, s, x);
    ExactlyOneDivergence(local, gcp, lo, hi, s, x);
  }

  /** For AUSENTE_GCP: both ends of the ID range are inside it; one step beyond either end is outside. */
  lemma RangeBoundsInclusive(local: Table, gcp: Table, lo: int, hi: int, s: Stamp)
    requires UniqueIds(local)
    requires lo <= hi
    ensures Find(local, lo).Some? && Find(gcp, lo).None? ==>
              Occurrences(Reconcile(local, gcp, lo, hi, s), AusenteGcp, lo) == 1
    ensures Find(local, hi).Some? && Find(gcp, hi).None? ==>
              Occurrences(Reconcile(local, gcp, lo, hi, s), AusenteGcp, hi) == 1
    ensures Occurrences(Reconcile(local, gcp, lo, hi, s), AusenteGcp, lo - 1) == 0
    ensures Occurrences(Reconcile(local, gcp, lo, hi, s), AusenteGcp, hi + 1) == 0
  {
    ExactlyOneMissingInGcp(local, gcp, lo, hi, s, lo);
    ExactlyOneMissingInGcp(local, gcp, lo, hi, s, hi);
    ExactlyOneMissingInGcp(local, gcp, lo, hi, s, lo - 1);
    ExactlyOneMissingInGcp(local, gcp, lo, hi, s, hi + 1);
  }

  /** For AUSENTE_LOCAL: both ends of the ID range are inside it; one step beyond either end is outside. */
  lemma RangeBoundsInclusiveMissingLocally(local: Table, gcp: Table, lo: int, hi: int, s: Stamp)
    requires UniqueIds(gcp)
    requires lo <= hi
    ensures Find(gcp, lo).Some? && Find(local, lo).None? ==>
              Occurrences(Reconcile(local, gcp, lo, hi, s), AusenteLocal, lo) == 1
    ensures Find(gcp, hi).Some? && Find(local, hi).None? ==>
              Occurrences(Reconcile(local, gcp, lo, hi, s), AusenteLocal, hi) == 1
    ensures Occurrences(Reconcile(local, gcp, lo, hi, s), AusenteLocal, lo - 1) == 0
    ensures Occurrences(Reconcile(local, gcp, lo, hi, s), AusenteLocal, hi + 1) == 0
  {
    ExactlyOneMissingLocally(local, gcp, lo, hi, s, lo);
    ExactlyOneMissingLocally(local, gcp, lo, hi, s, hi);
    ExactlyOneMissingLocally(local, gcp, lo, hi, s, lo - 1);
    ExactlyOneMissingLocally(local, gcp, lo, hi, s, hi + 1);
  }

  /** For DIVERGENCIA_VALORES: both ends of the ID range are inside it; one step beyond either end is outside. */
  lemma RangeBoundsInclusiveDivergence(local: Table, gcp: Table, lo: int, hi: int, s: Stamp)
    requires UniqueIds(local) && UniqueIds(gcp)
    requires lo <= hi
    ensures Find(local, lo).Some? && Find(gcp, lo).Some? && FieldsDiffer(Find(local, lo).value, Find(gcp, lo).value) ==>
              Occurrences(Reconcile(local, gcp, lo, hi, s), DivergenciaValores, lo) == 1
    ensures Find(local, hi).Some? && Find(gcp, hi).Some? && FieldsDiffer(Find(local, hi).value, Find(gcp, hi).value) ==>
              Occurrences(Reconcile(local, gcp, lo, hi, s), DivergenciaValores, hi) == 1
    ensures Occurrences(Reconcile(local, gcp, lo, hi, s), DivergenciaValores, lo - 1) == 0
    ensures Occurrences(Reconcile(local, gcp, lo, hi, s), DivergenciaValores, hi + 1) == 0
  {
    ExactlyOneDivergence(local, gcp, lo, hi, s, lo);
    ExactlyOneDivergence(local, gcp, lo, hi, s, hi);
    ExactlyOneDivergence(local, gcp, lo, hi, s, lo - 1);
    ExactlyOneDivergence(local, gcp, lo, hi, s, hi + 1);
  }

  // ---------------------------------------------------------------------------
  // Replacing the previous run; re-running
  // ---------------------------------------------------------------------------

  const NoStamp := Stamp("", "")

  /** A row with both timestamp columns blanked. */
  function Unstamp(d: Discrepancy): Discrepancy {
    d.(dataValidacao := "", dataProcessamento := "")
  }

  function UnstampAll(rows: seq<Discrepancy>): (r: seq<Discrepancy>)
    ensures |r| == |rows|
  {
    if |rows| == 0 then [] else [Unstamp(rows[0])] + UnstampAll(rows[1..])
  }

  lemma {:induction false} UnstampAllAppend(a: seq<Discrepancy>, b: seq<Discrepancy>)
    ensures UnstampAll(a + b) == UnstampAll(a) + UnstampAll(b)
  {
    if |a| > 0 {
      assert (a + b)[1..] == a[1..] + b;
      UnstampAllAppend(a[1..], b);
    } else {
      assert a + b == b;
    }
  }

  lemma {:induction false} MissingInGcpUnstamped(local: Table, gcp: Table, lo: int, hi: int, s: Stamp)
    ensures UnstampAll(MissingInGcp(local, gcp, lo, hi, s)) == MissingInGcp(local, gcp, lo, hi, NoStamp)
  {
    if |local| > 0 {
      var l := local[0];
      var head := if InRange(l.id, lo, hi) && Find(gcp, l.id).None? then [MissingInGcpRow(l, s)] else [];
      UnstampAllAppend(head, MissingInGcp(local[1..], gcp, lo, hi, s));
      MissingInGcpUnstamped(local[1..], gcp, lo, hi, s);
    }
  }

  lemma {:induction false} MissingLocallyUnstamped(local: Table, gcp: Table, lo: int, hi: int, s: Stamp)
    ensures UnstampAll(MissingLocally(local, gcp, lo, hi, s)) == MissingLocally(local, gcp, lo, hi, NoStamp)
  {
    if |gcp| > 0 {
      var g := gcp[0];
      var head := if InRange(g.id, lo, hi) && Find(local, g.id).None? then [MissingLocallyRow(g, s)] else [];
      UnstampAllAppend(head, MissingLocally(local, gcp[1..], lo, hi, s));
      MissingLocallyUnstamped(local, gcp[1..], lo, hi, s);
    }
  }

  lemma {:induction false} DivergentPartnersUnstamped(l: Record, gcp: Table, lo: int, hi: int, s: Stamp)
    ensures UnstampAll(DivergentPartners(l, gcp, lo, hi, s)) == DivergentPartners(l, gcp, lo, hi, NoStamp)
  {
    if |gcp| > 0 {
      var g := gcp[0];
      var head := if g.id == l.id && InRange(l.id, lo, hi) && Diverges(l, g) then [DivergenceRow(l, g, s)] else [];
      UnstampAllAppend(head, DivergentPartners(l, gcp[1..], lo, hi, s));
      DivergentPartnersUnstamped(l, gcp[1..], lo, hi, s);
    }
  }

  lemma {:induction false} DivergencesUnstamped(local: Table, gcp: Table, lo: int, hi: int, s: Stamp)
    ensures UnstampAll(Divergences(local, gcp, lo, hi, s)) == Divergences(local, gcp, lo, hi, NoStamp)
  {
    if |local| > 0 {
      UnstampAllAppend(DivergentPartners(local[0], gcp, lo, hi, s), Divergences(local[1..], gcp, lo, hi, s));
      DivergentPartnersUnstamped(local[0], gcp, lo, hi, s);
      DivergencesUnstamped(local[1..], gcp, lo, hi, s);
    }
  }

  /** The timestamps are the only part of a run's rows that depends on the clock. */
  lemma {:induction false} ReconcileUnstamped(local: Table, gcp: Table, lo: int, hi: int, s: Stamp)
    ensures UnstampAll(Reconcile(local, gcp, lo, hi, s)) == Reconcile(local, gcp, lo, hi, NoStamp)
  {
    var p1 := MissingInGcp(local, gcp, lo, hi, s);
    var p2 := MissingLocally(local, gcp, lo, hi, s);
    var p3 := Divergences(local, gcp, lo, hi, s);
    UnstampAllAppend(p1 + p2, p3);
    UnstampAllAppend(p1, p2);
    MissingInGcpUnstamped(local, gcp, lo, hi, s);
    MissingLocallyUnstamped(local, gcp, lo, hi, s);
    DivergencesUnstamped(local, gcp, lo, hi, s);
  }

  /**
   Re-running on unchanged tables and bounds, whatever the table held before
   and whenever the runs happen, yields the same rows apart from the two
   timestamp columns.
   */
  lemma RerunSameApartFromTimestamps(previous1: seq<Discrepancy>, previous2: seq<Discrepancy>,
                                     local: Table, gcp: Table, lo: int, hi: int, s1: Stamp, s2: Stamp)
    ensures UnstampAll(ExecutarValidacao(previous1, local, gcp, lo, hi, s1)) ==
            UnstampAll(ExecutarValidacao(previous2, local, gcp, lo, hi, s2))
  {
    ReconcileUnstamped(local, gcp, lo, hi, s1);
    ReconcileUnstamped(local, gcp, lo, hi, s2);
  }

  /** The result table after a run holds no row of the previous run that the new run did not produce. */
  lemma RunReplacesPrevious(previous: seq<Discrepancy>, local: Table, gcp: Table, lo: int, hi: int, s: Stamp)
    ensures ExecutarValidacao(previous, local, gcp, lo, hi, s) == ExecutarValidacao([], local, gcp, lo, hi, s)
    ensures ExecutarValidacao(ExecutarValidacao(previous, local, gcp, lo, hi, s), local, gcp, lo, hi, s) ==
            ExecutarValidacao(previous, local, gcp, lo, hi, s)
  {
  }
}

=== FILE: wrappers.dfy ===
/** Optional values: `None` stands for SQL NULL wherever a column may hold one. */
module Wrappers {

  datatype Option<+T> = None | Some(value: T) {

    /** Returns the value held in Some, or `default` for None. */
    function GetOr(default: T): T {
      match this
      case Some(v) => v
      case None => default
    }
  }
}
